=== FILE: README.md ===
# souper: a verified model of the soup

souper keeps collections of records called soups. A soup stores its records in a
ZODB tree keyed by a 32-bit integer id (the record's `intid`) and keeps a
catalog of them that answers queries. This project
models the core of `src/souper/soup.py`:

- `SoupData`: the record tree, the `Length` counter and the lazily created catalog.
- `Soup`: the catalog property, `get`, `add`, `query`, `lazy`, `clear`,
  `rebuild`, `reindex`, `__delitem__` and the id allocator `_generateid`
  (exactly as written, and in a corrected form that stays inside the key range).
- `LazyRecord`.
- `NodeAttributeIndexer` and `NodeTextIndexer`.

The model is functional. Every operation takes a soup value and returns a new
one, together with whatever the Python method returns or yields.

Files, one module each:

- `wrappers.dfy` (`Wrappers`): `Option` and `Result`.
- `records.dfy` (`Records`):
  - the record type: an optional `intid` plus string attributes;
  - the signed 32-bit key range of an `IOBTree`;
  - the store's lookup error.
- `keys.dfy` (`Keys`): the keys of a map in ascending order and `values()` in key order. These are how a BTree iterates.
- `catalog.dfy` (`Catalogs`):
  - the catalog as a log of the `index_doc`/`unindex_doc` calls it received;
  - the documents those calls leave indexed;
  - what indexing a list of stored records does.
- `idgen.dfy` (`IdAllocation`): id allocation:
  - `_generateid` exactly as written, together with the out-of-range id it can return;
  - the corrected allocator, which also reseeds a cursor that has left the key range, as a recursive function;
  - the same corrected allocator as a `while True` loop shaped like `_generateid`'s.
- `soup.dfy` (`Soups`): storage, soup and every operation.
- `soup_properties.dfy` (`SoupProperties`):
  - the soup invariant: counter equals size, records sit under their own id, the catalog mirrors the store;
  - its preservation by every operation and by any run of operations whose adds are given new records;
  - a caller's in-place edit of a stored record, and the `reindex` that brings the catalog back in step;
  - successive adds;
  - how `query` and `lazy` relate.
- `indexers.dfy` (`Indexers`): the two indexers, with Python's `str.strip` and `" ".join`.

Three collaborators become values or parameters:

- The catalog factory yields the constant empty catalog `Fresh`.
- The storage locator is replaced by passing the storage itself.
- `random.randrange(0, 2 ** 31)` becomes a caller-supplied stream of seeds in that range.

## Model

| member | source | states |
|---|---|---|
| Soups.WithCatalog | src/souper/soup.py:66-77 | the catalog property creates a fresh catalog only when the storage has none, and otherwise keeps the catalog it has; store and counter are untouched |
| Soups.Get | src/souper/soup.py:79-80 | `get` succeeds exactly for stored ids, returns the stored record, and otherwise fails with the store's lookup error for that id |
| Soups.Add | src/souper/soup.py:82-89 | `add` returns exactly what the corrected allocator returns for the store's keys, the cursor and the seeds: an id that was free and lies in the key range. It stores the record under that id with `intid` set, adds exactly that key and raises the counter by one. It sends the catalog exactly one `index_doc(id, record)` after its earlier calls, and leaves the cursor at id + 1. `get` of the id then returns the record. It fails only when the allocator runs out of seeds |
| Soups.Delete | src/souper/soup.py:161-169 | `__delitem__` fails exactly when the record's intid is unset or not stored, and it fails before any effect. On success it removes just that key, lowers the counter by one and appends one `unindex_doc`. A later `get` of that id fails |
| Soups.Reindex | src/souper/soup.py:150-159 | `reindex` leaves the store, counter and cursor alone. It sends one `index_doc(record.intid, record)` per given record, in order; with no records given, it sends one per stored record in key order. It creates a missing catalog only when there is something to index, since the catalog is read inside the loop |
| Soups.Rebuild | src/souper/soup.py:141-148 | `rebuild` drops the catalog for a fresh one that has received exactly one `index_doc` per stored record in key order |
| Soups.Clear | src/souper/soup.py:137-139 | `clear` leaves an empty store, a zero counter and a fresh catalog with no calls, and keeps the allocation cursor |
| Soups.Fetch | src/souper/soup.py:111-112 | the hit loop yields the stored record of each id in order. It stops at the first id that is not stored, with that id's lookup error |
| Soups.Stream | src/souper/soup.py:109-112 | a generator yields the size first exactly when `with_size` is set, then one item per element, in order |
| Soups.Query | src/souper/soup.py:91-112 | `query` yields the size exactly when asked, then `data[iid]` for the catalog's hits in order. It ends without failure exactly when every hit is stored, and in that case yields every hit. Otherwise it fails on the first missing hit with that id's lookup error |
| Soups.Lazy | src/souper/soup.py:114-135 | `lazy` never touches the store: it yields the size exactly when asked, then one handle per catalog hit carrying that hit's id, in order |
| Soups.Resolve | src/souper/soup.py:186-193 | calling a `LazyRecord` returns the record stored under its id in the soup as it is at call time, and otherwise the lookup error for that id |
| Catalogs.Index | src/souper/soup.py:88 | an `index_doc` call is appended to the catalog's calls, and afterwards the integer docid indexes the document |
| Catalogs.Unindex | src/souper/soup.py:169 | an `unindex_doc` call is appended to the catalog's calls, and afterwards the integer docid is no longer indexed |
| Catalogs.IndexCalls | src/souper/soup.py:158-159 | the reindex loop makes one `index_doc(record.intid, record)` call per record, in order |
| Catalogs.IndexEach | src/souper/soup.py:158-159 | the reindex loop's effect on the catalog: the calls it had, followed by one `index_doc(record.intid, record)` per record in order |
| Catalogs.IndexEachStored | src/souper/soup.py:156-159 | indexing records that are all stored adds to the catalog exactly the stored records under their intids |
| Keys.Ascending | src/souper/soup.py:157 | the BTree's key order lists every key exactly once, in strictly increasing order |
| Keys.Values | src/souper/soup.py:157 | `data.values()` has one entry per key, and the i-th entry is the value under the i-th smallest key |
| Keys.ValuesCoverKeys | src/souper/soup.py:157 | every stored value appears in `data.values()` at its key's position |
| IdAllocation.Allocate | src/souper/soup.py:174-183 | the corrected allocator (a cursor outside the key range is reseeded, which the source does not do) returns an id not in the store and inside the key range, leaving the cursor at id + 1. With no reseed the id is the cursor. With reseeds the id is the last seed drawn and every earlier seed drawn collided. It runs out only if the cursor and every seed collide |
| IdAllocation.GenerateId | src/souper/soup.py:174-183 | a `while True` loop shaped like `_generateid`'s (reseed when unset or out of range, hand out and advance, clear on a collision) computes exactly the corrected allocator's result |
| IdAllocation.AllocateAsWritten | src/souper/soup.py:174-183 | `_generateid` as written returns a free, non-negative id and leaves the cursor at id + 1; it has no upper bound |
| IdAllocation.AsWrittenLeavesKeyRange | src/souper/soup.py:176-182 | a seed of 2 ** 31 - 1 leaves the cursor at 2 ** 31, and the next `_generateid` call returns 2 ** 31, which lies outside the key range |
| IdAllocation.AllocateAgreesInRange | src/souper/soup.py:174-183 | while the cursor is inside the key range, the corrected allocator and the written one agree on every input |
| SoupProperties.NewSoupValid | src/souper/soup.py:26-31 | freshly initialised storage satisfies the soup invariant |
| SoupProperties.WithCatalogSynced | src/souper/soup.py:73-77 | on valid storage the catalog that the property returns indexes exactly the stored records |
| SoupProperties.AddPreservesValid | src/souper/soup.py:82-89 | `add` of a new record (intid unset) keeps the invariant: the counter equals the number of records, each record sits under its own id and the catalog indexes the new record under its id |
| SoupProperties.DeletePreservesValid | src/souper/soup.py:161-169 | a successful delete keeps the invariant and leaves the id neither stored nor indexed |
| SoupProperties.ValuesStored | src/souper/soup.py:156-157 | in a valid store, each entry of `data.values()` is the record stored under its own intid, and together the entries carry every key |
| SoupProperties.IndexAllIntoSynced | src/souper/soup.py:156-159 | reindexing everything into a catalog that already mirrors the store leaves it mirroring the store |
| SoupProperties.RebuildIndexesStore | src/souper/soup.py:141-148 | after `rebuild` the catalog indexes exactly the stored records, each under its own id |
| SoupProperties.RebuildPreservesValid | src/souper/soup.py:141-148 | `rebuild` keeps the invariant |
| SoupProperties.RebuildKeepsIndexed | src/souper/soup.py:141-148 | on a valid soup, `rebuild` leaves the catalog indexing the same documents as before |
| SoupProperties.ReindexPreservesValid | src/souper/soup.py:150-159 | `reindex` of everything, or of records exactly as stored, keeps the invariant |
| SoupProperties.ClearPreservesValid | src/souper/soup.py:137-139 | `clear` yields a valid soup from any soup |
| SoupProperties.QueryPreservesValid | src/souper/soup.py:101-108 | `query` and `lazy` change the soup only by creating a missing catalog, so they keep the invariant |
| SoupProperties.QueryOfIndexedIds | src/souper/soup.py:101-112 | on a valid soup, a catalog answer naming only indexed ids never fails. It yields one record per hit, and that record's intid is the hit |
| SoupProperties.QueryOfStoredIds | src/souper/soup.py:109-112 | the same for hits that are stored keys of a store whose records carry their keys |
| SoupProperties.QueryStopsAtMissing | src/souper/soup.py:111-112 | with only id 1 stored, hits `[1, 2]` yield the record under 1 and then fail with the lookup error for 2 |
| SoupProperties.LazyMatchesQuery | src/souper/soup.py:114-135 | calling `lazy`'s handles in the same soup gives `query`'s records, and the first handle past them fails exactly as `query` does |
| SoupProperties.LazyAfterDelete | src/souper/soup.py:186-193 | a handle reads the store when it is called: before the delete it resolves, after deleting its record it fails with that id's lookup error |
| SoupProperties.StepPreservesValid | src/souper/soup.py:79-169 | every single operation keeps the invariant, an add provided its record is new. This includes a failed delete, which changes nothing, and the seed stream stays valid |
| SoupProperties.RunPreservesValid | src/souper/soup.py:31-38 | after any run of operations from a valid soup whose adds are given new records, the `Length` counter equals the number of stored records, and the rest of the invariant holds |
| SoupProperties.EditStored | src/souper/soup.py:150-155 | a caller's in-place edit of a stored record changes only that record's attributes: its intid, every other record, the keys, the counter, the cursor and the catalog stay as they were |
| SoupProperties.EditLeavesCatalogStale | src/souper/soup.py:150-155 | after an edit that changes a stored record's attributes, the catalog no longer mirrors the store |
| SoupProperties.ReindexAfterEdit | src/souper/soup.py:150-159 | after a caller edits a stored record in place, reindexing just that record makes the soup valid again |
| SoupProperties.AddAllCounts | src/souper/soup.py:82-89 | successive adds return one id per record and raise the counter by the number of records |
| SoupProperties.AddAllFresh | src/souper/soup.py:174-183 | no id returned by successive adds was in use before them |
| SoupProperties.AddAllKeys | src/souper/soup.py:82-89 | successive adds grow the store's keys by exactly the returned ids |
| SoupProperties.AddAllDistinct | src/souper/soup.py:174-183 | successive adds return pairwise distinct ids |
| SoupProperties.QueryOneStored | src/souper/soup.py:109-112 | a query answered with one stored id yields exactly that record, without failure |
| SoupProperties.AddKeepsStored | src/souper/soup.py:82-89 | an add never reuses a stored id and leaves every stored record in place |
| IdAllocation.CursorPastFreed | src/souper/soup.py:177-182 | with the cursor one past `k`, the allocator hands out `k` only after reseeding from the stream |
| SoupProperties.AddThenDelete | src/souper/soup.py:161-169 | deleting the record an add just stored leaves the cursor one past the freed id and the unused seeds valid |
| SoupProperties.AddPastCursor | src/souper/soup.py:82-89 | with the cursor one past `k`, an add returns `k` only when it consumed at least one seed |
| SoupProperties.AddDeleteAddNoReuse | src/souper/soup.py:177-182 | after an add and a delete of that record, the next add hands the freed id back only if it drew a fresh seed; the cursor has moved past it |
| SoupProperties.TwoAddsThenQuery | src/souper/soup.py:82-112 | two adds of new records to an empty soup get different ids, and a query answered with the first id yields the first record with its intid set |
| SoupProperties.ClearThenQuery | src/souper/soup.py:137-139 | after `clear` the counter is zero and a query yields no record: only the size when asked for. It fails exactly when the catalog names some id |
| Indexers.AttributeIndex | src/souper/soup.py:212-215 | the attribute indexer returns the attribute's value when the record has it, and the default otherwise |
| Indexers.Strip | src/souper/soup.py:232 | `strip()` returns a trimmed infix of the input. Everything before and after it is whitespace, and it is empty exactly when the input is all whitespace |
| Indexers.StripUnique | src/souper/soup.py:232 | for any blank prefix, trimmed middle and blank suffix, `strip()` returns exactly the middle |
| Indexers.Survivors | src/souper/soup.py:225-235 | the loop keeps at most one value per listed name, each non-empty and trimmed, and keeps none exactly when every attribute is missing or blank |
| Indexers.SurvivorsAppend | src/souper/soup.py:226-235 | the kept values follow the order of the attribute names |
| Indexers.JoinSpace | src/souper/soup.py:238 | `u" ".join` gives the empty text for no values and the value itself for one; with `JoinSpaceAppend` this fixes every join |
| Indexers.JoinSpaceTrimmed | src/souper/soup.py:238 | joining non-empty trimmed values with one space gives a non-empty trimmed text that starts with the first value and ends with the last |
| Indexers.JoinSpaceAppend | src/souper/soup.py:238 | joining two non-empty lists of values is joining their joins with one space |
| Indexers.NodeText | src/souper/soup.py:224-238 | the text indexer has no text exactly when every attribute is missing or blank. Otherwise its text is non-empty and trimmed |
| Indexers.TextIndex | src/souper/soup.py:224-238 | the text indexer returns the default when every attribute is missing or blank, and otherwise the joined text, which is non-empty and trimmed |
| Indexers.TextOfOneAttribute | src/souper/soup.py:226-237 | with one attribute, the text indexer is the attribute indexer, stripped, with a blank value counted as missing |
| Indexers.NodeTextAppend | src/souper/soup.py:235-238 | when both attribute lists have text, the text of their concatenation is their two texts joined by one space |
| Indexers.BlankPrefixIgnored | src/souper/soup.py:233-234 | blank attributes before the others add neither text nor a separator |
| Indexers.BlankSuffixIgnored | src/souper/soup.py:233-234 | blank attributes after the others add neither text nor a separator |
| Indexers.BlankThenPadded | src/souper/soup.py:226-238 | attributes `x = " "` and `y = " b "` give the text `"b"` |

## Left out

- The storage locator (`queryAdapter(context, IStorageLocator)`, soup.py:51-60) and its `ValueError` when no adapter is found. Each operation is given the storage directly.
- The catalog factory (`getUtility(ICatalogFactory, ...)`, soup.py:75 and 145-147) is the constant empty catalog `Fresh`.
  - Factory lookup failures are not modelled.
  - The catalog's own indexes, its query evaluation, sorting and limits are not modelled. `query` and `lazy` take the catalog's answer `(size, iids)` as a parameter.
  - Errors raised by `index_doc`/`unindex_doc` are not modelled.
- The catalog property treats any existing catalog as present. The source tests `not storage.catalog` (soup.py:74), so a catalog object that Python considers false would be replaced. Catalog truthiness belongs to the catalog library.
- Persistence, transactions, `Persistent` and the `_v_` volatile attribute's lifetime are not modelled. Concurrency and conflict resolution are not modelled either.
- Soups.Add: records are values, not shared objects. In the source, `add` writes the new id into the caller's record object and stores that same object (soup.py:85-86). Adding an object that is already stored therefore also changes the entry under its old key, whose record then carries the new id. The model copies the record, so the invariant lemmas about adds are stated only for new records (intid unset), which is what `add` is documented to take.
- Soups.Add: it is built on the corrected allocator, so it never hands out 2 ** 31. The source's `_generateid` can return 2 ** 31; `add` then writes it into the record and fails to store it in the `IOBTree` (see Findings).
- SoupProperties.EditStored: a caller's change to a stored record object is seen by the store at once and by the catalog only after a `reindex`. The model has this one edit transition, on the attributes of one stored record; other mutations of shared record objects are not modelled.
- Soups.Add: `random.randrange(0, 2 ** 31)` is a finite caller-supplied stream of seeds. When the stream runs out before a free id is found, `Add` returns `None`, whereas the source keeps drawing.
- Soups.Query: the generator's laziness is not modelled. The whole run is one value, so the catalog is created at the first `next()` in the source but up front here. A run ends at the first missing hit, as the source's `KeyError` ends the generator.
- Soups.Delete: the source re-raises the store's own error (`KeyError`, or `TypeError` for an unset intid), while the interface docstring (interfaces.py:40-47) promises `ValueError`. The model follows the code: one lookup error carrying the intid, raised before the counter or catalog changes.
- `get_soup`, `RecordBehavior` and `Record`'s node machinery (soup.py:22-23 and 196-203) are not modelled. A record is its optional `intid` and a map of attributes.
- Indexers.TextIndex: attribute values are strings. The `bytes` decoding and `str()` conversion of other values (soup.py:228-231) are not modelled, and the default is a string.
- Indexers.AttributeIndex: the record's attributes are a map from names to values, without node semantics.
- `Length` is an unbounded integer. Its conflict-resolving behaviour is a persistence concern.

## Findings

| source | as written | input that shows it | evidently intended | confidence | as-written member | corrected member |
|---|---|---|---|---|---|---|
| src/souper/soup.py:174-183 | the cursor `_v_nextid` is handed out and advanced with no upper bound | a seed of 2 ** 31 - 1 into an empty soup gives id 2 ** 31 - 1 and cursor 2 ** 31. The next `_generateid` returns 2 ** 31, which `add` writes into the record and then cannot store, because it does not fit the signed 32-bit keys of an `IOBTree` | a cursor that leaves the key range is treated like an unset one and reseeded | medium, not executed | IdAllocation.AsWrittenLeavesKeyRange | IdAllocation.Allocate |

=== FILE: catalog.dfy ===
/** The catalog as the soup sees it: a collaborator that receives `index_doc`
    and `unindex_doc` calls and answers queries. Its indexes and its query
    evaluation are not modelled; what it holds is read off the calls it has
    received since it was created. */
module Catalogs {
  import opened Wrappers
  import opened Records

  /** One call made on the catalog. The docid is the record's `intid`
      attribute, so it may still be `None`. */
  datatype Call = IndexDoc(docid: Option<int>, doc: Record) | UnindexDoc(docid: Option<int>)

  /** A catalog, identified with the calls it has received since creation. */
  datatype Catalog = Catalog(calls: seq<Call>)

  /** What `catalog.query` returns: the total hit count and the ids in the
      catalog's own order (after its sorting and limit). */
  datatype Answer = Answer(size: int, iids: seq<int>)

  /** A catalog as the catalog factory hands it out: nothing indexed yet. */
  const Fresh: Catalog := Catalog([])

  function Apply(docs: map<int, Record>, call: Call): map<int, Record> {
    match call
    case IndexDoc(Some(k), r) => docs[k := r]
    case UnindexDoc(Some(k)) => docs - {k}
    case _ => docs
  }

  function Replay(calls: seq<Call>): map<int, Record> {
    if calls == [] then map[] else Apply(Replay(calls[..|calls| - 1]), calls[|calls| - 1])
  }

  /** The documents the catalog holds under integer ids. */
  function Indexed(c: Catalog): map<int, Record> {
    Replay(c.calls)
  }

  /** `index_doc(docid, doc)`: an integer docid now indexes `doc`, whatever it
      indexed before. */
  function Index(c: Catalog, docid: Option<int>, doc: Record): (c': Catalog)
    ensures c'.calls == c.calls + [Call.IndexDoc(docid, doc)]
    ensures docid.Some? ==> Indexed(c') == Indexed(c)[docid.value := doc]
    ensures docid.None? ==> Indexed(c') == Indexed(c)
  {
    var c' := Catalog(c.calls + [Call.IndexDoc(docid, doc)]);
    assert c'.calls[..|c'.calls| - 1] == c.calls;
    c'
  }

  /** `unindex_doc(docid)`: an integer docid is no longer indexed. */
  function Unindex(c: Catalog, docid: Option<int>): (c': Catalog)
    ensures c'.calls == c.calls + [Call.UnindexDoc(docid)]
    ensures docid.Some? ==> Indexed(c') == Indexed(c) - {docid.value}
    ensures docid.None? ==> Indexed(c') == Indexed(c)
  {
    var c' := Catalog(c.calls + [Call.UnindexDoc(docid)]);
    assert c'.calls[..|c'.calls| - 1] == c.calls;
    c'
  }

  /** The calls `for record in records: index_doc(record.intid, record)` makes. */
  function IndexCalls(records: seq<Record>): (calls: seq<Call>)
    ensures |calls| == |records|
    ensures forall i :: 0 <= i < |records| ==> calls[i] == Call.IndexDoc(records[i].intid, records[i])
  {
    seq(|records|, i requires 0 <= i < |records| => Call.IndexDoc(records[i].intid, records[i]))
  }

  /** Index each record in turn under its own `intid`. */
  function IndexEach(c: Catalog, records: seq<Record>): (c': Catalog)
    ensures c'.calls == c.calls + IndexCalls(records)
  {
    Catalog(c.calls + IndexCalls(records))
  }

  /** `r` is the record `m` holds under `r`'s own intid. */
  predicate StoredIn(r: Record, m: map<int, Record>) {
    r.intid.Some? && r.intid.value in m && m[r.intid.value] == r
  }

  /** The integer intids carried by `records`. */
  function Ids(records: seq<Record>): set<int> {
    set i | 0 <= i < |records| && records[i].intid.Some? :: records[i].intid.value
  }

  /** Records that are all stored in `m` carry only keys of `m`. */
  lemma IdsOfStored(records: seq<Record>, m: map<int, Record>)
    requires forall i :: 0 <= i < |records| ==> StoredIn(records[i], m)
    ensures Ids(records) <= m.Keys
  {
    forall k | k in Ids(records)
      ensures k in m
    {
      var i :| 0 <= i < |records| && records[i].intid.Some? && records[i].intid.value == k;
      assert StoredIn(records[i], m);
    }
  }

  function Restrict(m: map<int, Record>, ks: set<int>): map<int, Record> {
    map k | k in ks && k in m :: m[k]
  }

  lemma IdsSnoc(front: seq<Record>, r: Record)
    requires r.intid.Some?
    ensures Ids(front + [r]) == Ids(front) + {r.intid.value}
  {
    var records := front + [r];
    assert records[|front|] == r;
    assert r.intid.value in Ids(records);
    forall j | j in Ids(records)
      ensures j in Ids(front) + {r.intid.value}
    {
      var i :| 0 <= i < |records| && records[i].intid.Some? && records[i].intid.value == j;
      if i < |front| {
        assert front[i] == records[i];
      }
    }
    forall j | j in Ids(front)
      ensures j in Ids(records)
    {
      var i :| 0 <= i < |front| && front[i].intid.Some? && front[i].intid.value == j;
      assert records[i] == front[i];
    }
  }

  lemma IndexEachSnoc(c: Catalog, front: seq<Record>, r: Record)
    ensures IndexEach(c, front + [r]) == Index(IndexEach(c, front), r.intid, r)
  {
    assert IndexCalls(front + [r]) == IndexCalls(front) + [Call.IndexDoc(r.intid, r)];
  }

  lemma FreshIndexesNothing()
    ensures Indexed(Fresh) == map[]
  {
  }

  lemma UnionWithEmpty(m: map<int, Record>)
    ensures map[] + m == m
  {
  }

  lemma UnionWithSelf(m: map<int, Record>)
    ensures m + m == m
  {
  }

  lemma RestrictToKeys(m: map<int, Record>)
    ensures Restrict(m, m.Keys) == m
  {
  }

  lemma UnionRestrict(m: map<int, Record>, ks: set<int>)
    ensures m + Restrict(m, ks) == m
  {
  }

  lemma RestrictInsert(m: map<int, Record>, ks: set<int>, k: int)
    requires k in m
    ensures Restrict(m, ks + {k}) == Restrict(m, ks)[k := m[k]]
  {
  }

  lemma UnionUpdate(a: map<int, Record>, b: map<int, Record>, k: int, v: Record)
    ensures (a + b)[k := v] == a + b[k := v]
  {
  }

  /** Indexing records that are all stored in `m` adds to the catalog exactly
      the part of `m` under their intids. */
  lemma {:induction false} IndexEachStored(c: Catalog, records: seq<Record>, m: map<int, Record>)
    requires forall i :: 0 <= i < |records| ==> StoredIn(records[i], m)
    ensures Indexed(IndexEach(c, records)) == Indexed(c) + Restrict(m, Ids(records))
    decreases |records|
  {
    if records == [] {
      assert Ids(records) == {};
      assert Restrict(m, {}) == map[];
      assert IndexEach(c, records).calls == c.calls;
    } else {
      var n := |records| - 1;
      var front, r := records[..n], records[n];
      assert records == front + [r];
      var k := r.intid.value;
      IndexEachStored(c, front, m);
      IndexEachSnoc(c, front, r);
      IdsSnoc(front, r);
      RestrictInsert(m, Ids(front), k);
      UnionUpdate(Indexed(c), Restrict(m, Ids(front)), k, r);
    }
  }
}

=== FILE: idgen.dfy ===
/** Record id allocation (`Soup._generateid`): a cursor that is seeded with a
    random value, handed out and advanced by one, and cleared on a collision
    so that the next attempt reseeds.

    The random source is a caller-supplied stream `seeds` of values of
    `randrange(0, 2 ** 31)`; each reseed consumes its head. The source loops
    until it finds a free id; the model stops with `SeedsExhausted` when the
    stream it was given runs out first. */
module IdAllocation {
  import opened Wrappers
  import opened Records

  /** Every seed is a possible value of `randrange(0, 2 ** 31)`. */
  predicate ValidSeeds(seeds: seq<int>) {
    forall i :: 0 <= i < |seeds| ==> 0 <= seeds[i] < KeyBound
  }

  /** The outcome of one `_generateid` call: the id, the cursor it leaves
      behind, and the part of the random stream it did not consume. */
  datatype Allocation = Allocated(intid: int, nextid: int, unused: seq<int>) | SeedsExhausted

  /** The cursor values the corrected allocator hands out without reseeding:
      those that are still valid store keys. */
  predicate Live(cursor: Option<int>) {
    cursor.Some? && 0 <= cursor.value < KeyBound
  }

  /** The number of seeds an allocation consumed. */
  function Consumed(seeds: seq<int>, a: Allocation): int
    requires a.Allocated?
  {
    |seeds| - |a.unused|
  }

  /** `_generateid` with the cursor kept inside the key range: a cursor that
      has run past the largest key is treated as unset and reseeded. */
  function Allocate(used: set<int>, cursor: Option<int>, seeds: seq<int>): (a: Allocation)
    requires ValidSeeds(seeds)
    ensures a.Allocated? ==> a.intid !in used && 0 <= a.intid < KeyBound && a.nextid == a.intid + 1
    ensures a.Allocated? ==> |a.unused| <= |seeds| && a.unused == seeds[Consumed(seeds, a)..]
    ensures a.Allocated? && Consumed(seeds, a) == 0 ==> cursor == Some(a.intid)
    ensures a.Allocated? && Consumed(seeds, a) > 0 ==>
              a.intid == seeds[Consumed(seeds, a) - 1]
              && forall i :: 0 <= i < Consumed(seeds, a) - 1 ==> seeds[i] in used
    ensures a.Allocated? && Consumed(seeds, a) > 0 && Live(cursor) ==> cursor.value in used
    ensures a.SeedsExhausted? <==>
              (!Live(cursor) || cursor.value in used) && forall i :: 0 <= i < |seeds| ==> seeds[i] in used
    decreases |seeds|, if Live(cursor) then 1 else 0
  {
    if !Live(cursor) then
      if seeds == [] then SeedsExhausted
      else
        var a := Allocate(used, Some(seeds[0]), seeds[1..]);
        assert a.Allocated? ==> Consumed(seeds, a) == Consumed(seeds[1..], a) + 1;
        a
    else if cursor.value !in used then
      Allocated(cursor.value, cursor.value + 1, seeds)
    else
      Allocate(used, None, seeds)
  }

  /** A cursor one past `k` hands `k` out only after drawing a seed. */
  lemma CursorPastFreed(used: set<int>, k: int, seeds: seq<int>)
    requires ValidSeeds(seeds)
    ensures var a := Allocate(used, Some(k + 1), seeds);
            a.Allocated? && a.intid == k ==> Consumed(seeds, a) > 0
  {
  }

  /** An unset or spent cursor is reseeded from the head of the stream. */
  lemma ReseedStep(used: set<int>, cursor: Option<int>, seeds: seq<int>)
    requires ValidSeeds(seeds) && seeds != [] && !Live(cursor)
    ensures Allocate(used, cursor, seeds) == Allocate(used, Some(seeds[0]), seeds[1..])
  {
  }

  /** A cursor on a free id is handed out without touching the stream. */
  lemma FreeStep(used: set<int>, intid: int, seeds: seq<int>)
    requires ValidSeeds(seeds) && Live(Some(intid)) && intid !in used
    ensures Allocate(used, Some(intid), seeds) == Allocated(intid, intid + 1, seeds)
  {
  }

  /** A cursor that hits a used id is cleared. */
  lemma CollisionStep(used: set<int>, intid: int, seeds: seq<int>)
    requires ValidSeeds(seeds) && Live(Some(intid)) && intid in used
    ensures Allocate(used, Some(intid), seeds) == Allocate(used, None, seeds)
  {
  }

  /** The loop of `_generateid`, with the same in-range guard as `Allocate`. */
  method GenerateId(used: set<int>, cursor0: Option<int>, seeds: seq<int>) returns (a: Allocation)
    requires ValidSeeds(seeds)
    ensures a == Allocate(used, cursor0, seeds)
  {
    var cursor, rest := cursor0, seeds;
    while true
      invariant ValidSeeds(rest)
      invariant Allocate(used, cursor, rest) == Allocate(used, cursor0, seeds)
      decreases |rest|, if Live(cursor) then 1 else 0
    {
      if !Live(cursor) {
        if rest == [] {
          return SeedsExhausted;
        }
        ReseedStep(used, cursor, rest);
        cursor, rest := Some(rest[0]), rest[1..];
      }
      var intid := cursor.value;
      assert Live(Some(intid));
      cursor := Some(intid + 1);
      if intid !in used {
        FreeStep(used, intid, rest);
        return Allocated(intid, intid + 1, rest);
      }
      CollisionStep(used, intid, rest);
      cursor := None;
    }
  }

  /** `_generateid` exactly as written: any set cursor is handed out, however
      large it has grown. */
  function AllocateAsWritten(used: set<int>, cursor: Option<int>, seeds: seq<int>): (a: Allocation)
    requires ValidSeeds(seeds)
    requires cursor.Some? ==> cursor.value >= 0
    ensures a.Allocated? ==> a.intid !in used && 0 <= a.intid && a.nextid == a.intid + 1
    ensures a.Allocated? ==> |a.unused| <= |seeds| && a.unused == seeds[Consumed(seeds, a)..]
    ensures a.SeedsExhausted? <==>
              (cursor.None? || cursor.value in used) && forall i :: 0 <= i < |seeds| ==> seeds[i] in used
    decreases |seeds|, if cursor.Some? then 1 else 0
  {
    if cursor.None? then
      if seeds == [] then SeedsExhausted
      else
        var a := AllocateAsWritten(used, Some(seeds[0]), seeds[1..]);
        assert a.Allocated? ==> Consumed(seeds, a) == Consumed(seeds[1..], a) + 1;
        a
    else if cursor.value !in used then
      Allocated(cursor.value, cursor.value + 1, seeds)
    else
      AllocateAsWritten(used, None, seeds)
  }

  /** A seed at the top of the random range leaves the cursor at 2 ** 31; the
      next call hands that out, though no key of the store can hold it. */
  lemma AsWrittenLeavesKeyRange()
    ensures var first := AllocateAsWritten({}, None, [KeyBound - 1]);
            && first == Allocated(KeyBound - 1, KeyBound, [])
            && var second := AllocateAsWritten({first.intid}, Some(first.nextid), []);
            && second == Allocated(KeyBound, KeyBound + 1, [])
            && !InKeyRange(second.intid)
  {
  }

  /** Where the written allocator stays in range, the corrected one agrees
      with it call for call. */
  lemma {:induction false} AllocateAgreesInRange(used: set<int>, cursor: Option<int>, seeds: seq<int>)
    requires ValidSeeds(seeds)
    requires cursor.Some? ==> 0 <= cursor.value < KeyBound
    ensures Allocate(used, cursor, seeds) == AllocateAsWritten(used, cursor, seeds)
    decreases |seeds|, if cursor.Some? then 1 else 0
  {
    if cursor.None? {
      if seeds != [] {
        AllocateAgreesInRange(used, Some(seeds[0]), seeds[1..]);
      }
    } else if cursor.value in used {
      AllocateAgreesInRange(used, None, seeds);
    }
  }
}

=== FILE: indexers.dfy ===
/** The two indexers the package ships for feeding catalog fields from a
    record's attributes: `NodeAttributeIndexer` and `NodeTextIndexer`. */
module Indexers {
  import opened Wrappers

  /** Python's `str.isspace` for one character: the whitespace that
      `str.strip()` removes. */
  predicate IsSpace(c: char) {
    var n := c as int;
    || 9 <= n <= 13
    || 28 <= n <= 32
    || n == 0x85 || n == 0xA0 || n == 0x1680
    || 0x2000 <= n <= 0x200A
    || n == 0x2028 || n == 0x2029 || n == 0x202F || n == 0x205F || n == 0x3000
  }

  /** Every character of `s` from `lo` up to `hi` is whitespace. */
  predicate SpacesIn(s: string, lo: int, hi: int)
    requires 0 <= lo <= hi <= |s|
  {
    forall i :: lo <= i < hi ==> IsSpace(s[i])
  }

  /** Every character of `s` is whitespace. */
  predicate AllSpace(s: string) {
    SpacesIn(s, 0, |s|)
  }

  /** `s` is empty or starts and ends with a non-space character. */
  predicate Trimmed(s: string) {
    s == [] || (!IsSpace(s[0]) && !IsSpace(s[|s| - 1]))
  }

  /** The length of the whitespace prefix of `s`. */
  function LeadingSpaces(s: string): (n: nat)
    ensures n <= |s|
    ensures SpacesIn(s, 0, n)
    ensures n < |s| ==> !IsSpace(s[n])
  {
    if s == [] || !IsSpace(s[0]) then 0 else 1 + LeadingSpaces(s[1..])
  }

  /** Where the whitespace suffix of `s` begins. */
  function TrailingStart(s: string): (e: nat)
    ensures e <= |s|
    ensures SpacesIn(s, e, |s|)
    ensures 0 < e ==> !IsSpace(s[e - 1])
  {
    if s == [] || !IsSpace(s[|s| - 1]) then |s| else TrailingStart(s[..|s| - 1])
  }

  /** `str.strip()`: `s` without its leading and trailing whitespace. */
  function Strip(s: string): (r: string)
    ensures |r| <= |s|
    ensures Trimmed(r)
    ensures r == [] <==> AllSpace(s)
    ensures LeadingSpaces(s) + |r| <= |s|
    ensures r == s[LeadingSpaces(s)..LeadingSpaces(s) + |r|]
    ensures SpacesIn(s, LeadingSpaces(s) + |r|, |s|)
  {
    var i := LeadingSpaces(s);
    if i == |s| then []
    else
      var e := TrailingStart(s);
      assert i < e;
      s[i..e]
  }

  /** Whitespace around a trimmed middle is exactly what `Strip` removes: for
      every split of `s` into blank prefix, trimmed middle and blank suffix,
      `Strip` returns the middle. */
  lemma StripUnique(pre: string, mid: string, post: string)
    requires AllSpace(pre) && AllSpace(post) && Trimmed(mid)
    ensures Strip(pre + mid + post) == mid
  {
    var s := pre + mid + post;
    var a, b := |pre|, |pre| + |mid|;
    assert forall k :: 0 <= k < a ==> s[k] == pre[k];
    assert forall k :: b <= k < |s| ==> s[k] == post[k - b];
    if mid == [] {
      assert AllSpace(s);
    } else {
      assert s[a] == mid[0] && s[b - 1] == mid[|mid| - 1];
      var n := LeadingSpaces(s);
      assert n == a;
      var r := Strip(s);
      assert |r| == |mid|;
      assert s[a..b] == mid;
    }
  }

  /** `NodeAttributeIndexer(attr)(context, default)`: the attribute's value
      when the record has it, `default` otherwise. */
  function AttributeIndex<V>(attrs: map<string, V>, attr: string, default: V): (v: V)
    ensures attr in attrs ==> v == attrs[attr]
    ensures attr !in attrs ==> v == default
  {
    if attr in attrs then attrs[attr] else default
  }

  /** The attribute is missing or blank: what `NodeTextIndexer` skips. */
  predicate Blank(attrs: map<string, string>, name: string) {
    AllSpace(AttributeIndex(attrs, name, ""))
  }

  /** The stripped values of `names` that are not blank, in `names` order. */
  function Survivors(attrs: map<string, string>, names: seq<string>): (parts: seq<string>)
    ensures |parts| <= |names|
    ensures forall i :: 0 <= i < |parts| ==> parts[i] != [] && Trimmed(parts[i])
    ensures parts == [] <==> forall i :: 0 <= i < |names| ==> Blank(attrs, names[i])
  {
    if names == [] then []
    else
      var v := Strip(AttributeIndex(attrs, names[0], ""));
      var rest := Survivors(attrs, names[1..]);
      assert v == [] <==> Blank(attrs, names[0]);
      assert forall i :: 1 <= i < |names| ==> names[i] == names[1..][i - 1];
      if v == [] then rest else [v] + rest
  }

  /** Survivors of consecutive attribute lists follow one another: the order
      of `names` is kept. */
  lemma {:induction false} SurvivorsAppend(attrs: map<string, string>, names: seq<string>, more: seq<string>)
    ensures Survivors(attrs, names + more) == Survivors(attrs, names) + Survivors(attrs, more)
    decreases |names|
  {
    if names == [] {
      assert names + more == more;
    } else {
      assert (names + more)[1..] == names[1..] + more;
      SurvivorsAppend(attrs, names[1..], more);
    }
  }

  /** `" ".join(parts)`. */
  function JoinSpace(parts: seq<string>): (s: string)
    ensures parts == [] ==> s == []
    ensures |parts| == 1 ==> s == parts[0]
  {
    if parts == [] then []
    else if |parts| == 1 then parts[0]
    else parts[0] + " " + JoinSpace(parts[1..])
  }

  /** Joining non-empty trimmed parts gives a trimmed, non-empty string that
      starts with the first part and ends with the last. */
  lemma {:induction false} JoinSpaceTrimmed(parts: seq<string>)
    requires parts != []
    requires forall i :: 0 <= i < |parts| ==> parts[i] != [] && Trimmed(parts[i])
    ensures JoinSpace(parts) != []
    ensures JoinSpace(parts)[0] == parts[0][0]
    ensures var s, last := JoinSpace(parts), parts[|parts| - 1];
            s[|s| - 1] == last[|last| - 1]
    ensures Trimmed(JoinSpace(parts))
    decreases |parts|
  {
    if |parts| > 1 {
      var rest := parts[1..];
      JoinSpaceTrimmed(rest);
      assert rest[|rest| - 1] == parts[|parts| - 1];
    }
  }

  /** The joined text of `NodeTextIndexer(names)`: `None` when every value is
      blank, otherwise the stripped non-blank values joined by one space. */
  function NodeText(attrs: map<string, string>, names: seq<string>): (r: Option<string>)
    ensures r.None? <==> forall i :: 0 <= i < |names| ==> Blank(attrs, names[i])
    ensures r.Some? ==> r.value != [] && Trimmed(r.value)
  {
    var parts := Survivors(attrs, names);
    if parts == [] then None
    else
      JoinSpaceTrimmed(parts);
      Some(JoinSpace(parts))
  }

  /** `NodeTextIndexer(names)(context, default)`. */
  function TextIndex(attrs: map<string, string>, names: seq<string>, default: string): (r: string)
    ensures (forall i :: 0 <= i < |names| ==> Blank(attrs, names[i])) ==> r == default
    ensures NodeText(attrs, names).Some? ==> r == NodeText(attrs, names).value
    ensures (exists i :: 0 <= i < |names| && !Blank(attrs, names[i])) ==> r != [] && Trimmed(r)
  {
    NodeText(attrs, names).GetOr(default)
  }

  /** With a single attribute the text indexer is the attribute indexer,
      stripped, with a blank value counted as missing. */
  lemma TextOfOneAttribute(attrs: map<string, string>, name: string)
    ensures var v := Strip(AttributeIndex(attrs, name, ""));
            NodeText(attrs, [name]) == if v == [] then None else Some(v)
  {
    assert [name][1..] == [];
  }

  /** The joined text is the join of the values in order: text of two
      attribute lists is their texts joined by one space. */
  lemma {:induction false} NodeTextAppend(attrs: map<string, string>, names: seq<string>, more: seq<string>)
    requires NodeText(attrs, names).Some? && NodeText(attrs, more).Some?
    ensures NodeText(attrs, names + more) == Some(NodeText(attrs, names).value + " " + NodeText(attrs, more).value)
  {
    SurvivorsAppend(attrs, names, more);
    JoinSpaceAppend(Survivors(attrs, names), Survivors(attrs, more));
  }

  /** Blank attributes before the others contribute nothing: no text and no
      separator. */
  lemma BlankPrefixIgnored(attrs: map<string, string>, names: seq<string>, more: seq<string>)
    requires forall i :: 0 <= i < |names| ==> Blank(attrs, names[i])
    ensures NodeText(attrs, names + more) == NodeText(attrs, more)
  {
    SurvivorsAppend(attrs, names, more);
    assert Survivors(attrs, names) == [];
    assert Survivors(attrs, names + more) == Survivors(attrs, more);
  }

  /** Blank attributes after the others contribute nothing either. */
  lemma BlankSuffixIgnored(attrs: map<string, string>, names: seq<string>, more: seq<string>)
    requires forall i :: 0 <= i < |more| ==> Blank(attrs, more[i])
    ensures NodeText(attrs, names + more) == NodeText(attrs, names)
  {
    SurvivorsAppend(attrs, names, more);
    assert Survivors(attrs, more) == [];
    assert Survivors(attrs, names + more) == Survivors(attrs, names);
  }

  /** A blank attribute before a padded one: the text is the padded value,
      stripped, with no separator. */
  lemma BlankThenPadded()
    ensures NodeText(map["x" := " ", "y" := " b "], ["x", "y"]) == Some("b")
  {
    var attrs := map["x" := " ", "y" := " b "];
    assert AllSpace(" ");
    assert Blank(attrs, "x");
    assert ["x", "y"] == ["x"] + ["y"];
    BlankPrefixIgnored(attrs, ["x"], ["y"]);
    StripUnique(" ", "b", " ");
    assert " " + "b" + " " == " b ";
    TextOfOneAttribute(attrs, "y");
  }

  lemma {:induction false} JoinSpaceAppend(xs: seq<string>, ys: seq<string>)
    requires xs != [] && ys != []
    ensures JoinSpace(xs + ys) == JoinSpace(xs) + " " + JoinSpace(ys)
    decreases |xs|
  {
    if |xs| == 1 {
      assert (xs + ys)[1..] == ys;
    } else {
      assert (xs + ys)[1..] == xs[1..] + ys;
      JoinSpaceAppend(xs[1..], ys);
    }
  }
}

=== FILE: keys.dfy ===
/** Ordered traversal of an integer-keyed map, the order in which an `IOBTree`
    yields its keys and values. */
module Keys {

  lemma NonEmptyHasMember(ks: set<int>)
    requires ks != {}
    ensures exists k :: k in ks
  {
    if forall k :: k !in ks {
      assert false;
    }
  }

  lemma {:induction false} MinimumExists(ks: set<int>)
    requires ks != {}
    ensures exists m :: m in ks && forall k :: k in ks ==> m <= k
    decreases |ks|
  {
    NonEmptyHasMember(ks);
    var x :| x in ks;
    var rest := ks - {x};
    if rest == {} {
      forall k | k in ks
        ensures x <= k
      {
        assert k !in rest;
      }
    } else {
      MinimumExists(rest);
      var m :| m in rest && forall k :: k in rest ==> m <= k;
      var least := if x < m then x else m;
      forall k | k in ks
        ensures least <= k
      {
        if k != x {
          assert k in rest;
        }
      }
      assert least in ks;
    }
  }

  /** The least key of a non-empty key set. */
  function Minimum(ks: set<int>): (m: int)
    requires ks != {}
    ensures m in ks
    ensures forall k :: k in ks ==> m <= k
  {
    MinimumExists(ks);
    var m :| m in ks && forall k :: k in ks ==> m <= k;
    m
  }

  /** The keys in ascending order, each exactly once. */
  function Ascending(ks: set<int>): (r: seq<int>)
    ensures |r| == |ks|
    ensures forall k :: k in r <==> k in ks
    ensures forall i, j :: 0 <= i < j < |r| ==> r[i] < r[j]
    decreases |ks|
  {
    if ks == {} then []
    else
      var m := Minimum(ks);
      [m] + Ascending(ks - {m})
  }

  /** `m.values()`: the values in ascending key order. */
  function Values<V>(m: map<int, V>): (vs: seq<V>)
    ensures |vs| == |m|
    ensures forall i :: 0 <= i < |vs| ==> Ascending(m.Keys)[i] in m && vs[i] == m[Ascending(m.Keys)[i]]
  {
    var ks := Ascending(m.Keys);
    seq(|ks|, i requires 0 <= i < |ks| => m[ks[i]])
  }

  /** Every value of `m` is listed by `Values`, at the position of its key. */
  lemma ValuesCoverKeys<V>(m: map<int, V>, k: int)
    requires k in m
    ensures exists i :: 0 <= i < |Values(m)| && Ascending(m.Keys)[i] == k && Values(m)[i] == m[k]
  {
    var ks := Ascending(m.Keys);
    assert k in ks;
    var i :| 0 <= i < |ks| && ks[i] == k;
    assert Values(m)[i] == m[k];
  }
}

=== FILE: records.dfy ===
/** Records as the soup stores them, and the failures the store reports. */
module Records {
  import opened Wrappers

  /** Keys of the record store are C `int`s (an `IOBTree`): the signed 32-bit
      range [-KeyBound, KeyBound). Fresh seeds are drawn from [0, KeyBound). */
  const KeyBound: int := 0x8000_0000

  predicate InKeyRange(k: int) {
    -KeyBound <= k < KeyBound
  }

  /** A record: its attribute mapping and the `intid` the soup assigns on
      insertion (`None` until then). Attribute values are modelled as strings. */
  datatype Record = Record(intid: Option<int>, attrs: map<string, string>)

  /** The store's lookup failure: `KeyError` for an absent integer key, or the
      error the store raises for a record whose `intid` is still `None`. */
  datatype Error = NotFound(intid: Option<int>)
}

=== FILE: soup.dfy ===
/** The soup: a record store (`SoupData`) and the coordinator (`Soup`) that
    keeps the store and its catalog in step.

    The storage locator is not modelled: each operation is handed the storage
    it works on. The catalog factory is the constant `Fresh`. */
module Soups {
  import opened Wrappers
  import opened Records
  import opened Catalogs
  import Keys
  import IdAllocation

  /** The persisted state of one soup: records by intid, the live-entry count
      (a `Length` counter) and the catalog, created on first use. */
  datatype SoupData = SoupData(data: map<int, Record>, length: int, catalog: Option<Catalog>)

  /** Storage as `SoupData.__init__` leaves it. */
  const NewStorage: SoupData := SoupData(map[], 0, None)

  /** A soup: the storage it locates, and its id-allocation cursor
      (`_v_nextid`), unset until the first allocation. */
  datatype Soup = Soup(storage: SoupData, nextid: Option<int>)

  /** What an `Added` record left behind: the new soup, the id returned and
      the unconsumed part of the random stream. */
  datatype Added = Added(soup: Soup, intid: int, unused: seq<int>)

  /** An item a query generator yields: the size first when asked for, then
      one item per catalog hit. */
  datatype Yield<T> = Size(n: int) | Item(value: T)

  /** A whole run of a query generator: the soup after it, everything it
      yielded, and the failure that ended it early, if any. */
  datatype Run<T> = Run(soup: Soup, items: seq<Yield<T>>, failure: Option<Error>)

  /** A handle that fetches the record for `intid` only when called. */
  datatype LazyRecord = LazyRecord(intid: int)

  /** The `catalog` property: the storage's catalog, created by the factory
      when there is none yet. */
  function WithCatalog(st: SoupData): (st': SoupData)
    ensures st'.catalog.Some?
    ensures st'.data == st.data && st'.length == st.length
    ensures st.catalog.Some? ==> st'.catalog == st.catalog
    ensures st.catalog.None? ==> st'.catalog == Some(Fresh)
  {
    if st.catalog.Some? then st else st.(catalog := Some(Fresh))
  }

  /** The calls the storage's catalog has received; none if it has no catalog yet. */
  function CatalogCalls(st: SoupData): seq<Call> {
    if st.catalog.Some? then st.catalog.value.calls else []
  }

  /** `Soup.get`: the record stored under `intid`. */
  function Get(s: Soup, intid: int): (r: Result<Record, Error>)
    ensures r.Ok? <==> intid in s.storage.data
    ensures r.Ok? ==> r.value == s.storage.data[intid]
    ensures r.Err? ==> r.error == NotFound(Some(intid))
  {
    if intid in s.storage.data then Ok(s.storage.data[intid]) else Err(NotFound(Some(intid)))
  }

  /** `Soup.add`: allocate a fresh id, write it into the record, store the
      record under it, count it and index it. `None` when the random stream
      ran out before a free id was found. */
  function Add(s: Soup, record: Record, seeds: seq<int>): (r: Option<Added>)
    requires IdAllocation.ValidSeeds(seeds)
    ensures r.None? <==> IdAllocation.Allocate(s.storage.data.Keys, s.nextid, seeds).SeedsExhausted?
    ensures r.Some? ==> r.value.intid !in s.storage.data && 0 <= r.value.intid < KeyBound
    ensures r.Some? ==> r.value.soup.storage.data == s.storage.data[r.value.intid := record.(intid := Some(r.value.intid))]
    ensures r.Some? ==> forall k :: k in r.value.soup.storage.data <==> k in s.storage.data || k == r.value.intid
    ensures r.Some? ==> r.value.soup.storage.length == s.storage.length + 1
    ensures r.Some? ==> r.value.soup.storage.catalog.Some? && r.value.soup.storage.catalog.value.calls
                          == CatalogCalls(s.storage) + [Call.IndexDoc(Some(r.value.intid), record.(intid := Some(r.value.intid)))]
    ensures r.Some? ==> r.value.soup.nextid == Some(r.value.intid + 1)
    ensures r.Some? ==> |r.value.unused| <= |seeds| && r.value.unused == seeds[|seeds| - |r.value.unused|..]
    ensures r.Some? ==> IdAllocation.ValidSeeds(r.value.unused)
    ensures r.Some? ==>
              IdAllocation.Allocate(s.storage.data.Keys, s.nextid, seeds)
                == IdAllocation.Allocated(r.value.intid, r.value.intid + 1, r.value.unused)
    ensures r.Some? ==> Get(r.value.soup, r.value.intid) == Ok(record.(intid := Some(r.value.intid)))
  {
    match IdAllocation.Allocate(s.storage.data.Keys, s.nextid, seeds)
    case SeedsExhausted => None
    case Allocated(intid, next, unused) =>
      var stored := record.(intid := Some(intid));
      var data := s.storage.data[intid := stored];
      var st := WithCatalog(s.storage.(data := data, length := s.storage.length + 1));
      var st' := st.(catalog := Some(Index(st.catalog.value, Some(intid), stored)));
      Some(Added(Soup(st', Some(next)), intid, unused))
  }

  /** `Soup.__delitem__`: remove the record stored under `record.intid`, count
      it out, then unindex it. The store's failure for an absent (or unset)
      intid propagates before the count or the catalog is touched. */
  function Delete(s: Soup, record: Record): (r: Result<Soup, Error>)
    ensures r.Err? <==> record.intid.None? || record.intid.value !in s.storage.data
    ensures r.Err? ==> r.error == NotFound(record.intid)
    ensures r.Ok? ==>
              var k := record.intid.value;
              var st' := r.value.storage;
              && st'.data == s.storage.data - {k}
              && |st'.data| == |s.storage.data| - 1
              && st'.length == s.storage.length - 1
              && st'.catalog.Some?
              && st'.catalog.value.calls == CatalogCalls(s.storage) + [Call.UnindexDoc(Some(k))]
              && r.value.nextid == s.nextid
              && Get(r.value, k) == Err(NotFound(Some(k)))
  {
    if record.intid.None? || record.intid.value !in s.storage.data then
      Err(NotFound(record.intid))
    else
      var k := record.intid.value;
      var st := WithCatalog(s.storage.(data := s.storage.data - {k}, length := s.storage.length - 1));
      var st' := st.(catalog := Some(Unindex(st.catalog.value, Some(k))));
      Ok(Soup(st', s.nextid))
  }

  /** `Soup.reindex`: index the given records, or every stored record in key
      order when none are given. Nothing is stored and no id is allocated.
      The catalog property is only read inside the loop, so with nothing to
      index a missing catalog stays missing. */
  function Reindex(s: Soup, records: Option<seq<Record>>): (s': Soup)
    ensures s'.storage.data == s.storage.data
    ensures s'.storage.length == s.storage.length
    ensures s'.nextid == s.nextid
    ensures records.Some? ==> CatalogCalls(s'.storage) == CatalogCalls(s.storage) + IndexCalls(records.value)
    ensures records.None? ==> CatalogCalls(s'.storage) == CatalogCalls(s.storage) + IndexCalls(Keys.Values(s.storage.data))
    ensures s'.storage.catalog.Some? <==>
              s.storage.catalog.Some? || (if records.Some? then records.value != [] else s.storage.data != map[])
    ensures s.storage.catalog.Some? ==> s'.storage.catalog.Some?
  {
    var targets := if records.Some? then records.value else Keys.Values(s.storage.data);
    if targets == [] then
      assert CatalogCalls(s.storage) + IndexCalls(targets) == CatalogCalls(s.storage);
      s
    else
      var st := WithCatalog(s.storage);
      Soup(st.(catalog := Some(IndexEach(st.catalog.value, targets))), s.nextid)
  }

  /** `Soup.rebuild`: replace the catalog by a fresh one and index every
      stored record into it. */
  function Rebuild(s: Soup): (s': Soup)
    ensures s'.storage.data == s.storage.data
    ensures s'.storage.length == s.storage.length
    ensures s'.nextid == s.nextid
    ensures s'.storage.catalog == Some(IndexEach(Fresh, Keys.Values(s.storage.data)))
  {
    Reindex(Soup(s.storage.(catalog := Some(Fresh)), s.nextid), None)
  }

  /** `Soup.clear`: reinitialise the storage, then rebuild. */
  function Clear(s: Soup): (s': Soup)
    ensures s'.storage.data == map[]
    ensures s'.storage.length == 0
    ensures s'.storage.catalog == Some(Fresh)
    ensures s'.nextid == s.nextid
  {
    assert Keys.Values(NewStorage.data) == [];
    Rebuild(Soup(NewStorage, s.nextid))
  }

  /** The records stored under `iids`, in order, up to the first id that is
      not stored; that id is the failure. */
  function Fetch(data: map<int, Record>, iids: seq<int>): (f: (seq<Record>, Option<Error>))
    ensures |f.0| <= |iids|
    ensures forall i :: 0 <= i < |f.0| ==> iids[i] in data && f.0[i] == data[iids[i]]
    ensures f.1.None? <==> |f.0| == |iids|
    ensures f.1.Some? ==> iids[|f.0|] !in data && f.1.value == NotFound(Some(iids[|f.0|]))
  {
    if iids == [] then ([], None)
    else if iids[0] !in data then ([], Some(NotFound(Some(iids[0]))))
    else
      var rest := Fetch(data, iids[1..]);
      ([data[iids[0]]] + rest.0, rest.1)
  }

  /** Where the hits start among the yielded items. */
  function Offset(withSize: bool): nat {
    if withSize then 1 else 0
  }

  /** What a query generator yields for `xs`: the size first when asked
      for, then one item per element of `xs`. */
  function Stream<T>(answer: Answer, withSize: bool, xs: seq<T>): (ys: seq<Yield<T>>)
    ensures |ys| == Offset(withSize) + |xs|
    ensures withSize <==> |ys| > 0 && ys[0] == Size(answer.size)
    ensures forall i :: 0 <= i < |xs| ==> ys[Offset(withSize) + i] == Item(xs[i])
  {
    var items := seq(|xs|, i requires 0 <= i < |xs| => Item(xs[i]));
    if withSize then [Size(answer.size)] + items else items
  }

  /** `Soup.query`: ask the catalog (whose reply is `answer`), yield its size
      first when `withSize` is set, then the stored record for each hit in
      catalog order; a hit that is not stored ends the run with a failure. */
  function Query(s: Soup, answer: Answer, withSize: bool): (r: Run<Record>)
    ensures r.soup == Soup(WithCatalog(s.storage), s.nextid)
    ensures withSize <==> |r.items| > 0 && r.items[0] == Size(answer.size)
    ensures Offset(withSize) <= |r.items| <= Offset(withSize) + |answer.iids|
    ensures forall i :: 0 <= i < |r.items| - Offset(withSize) ==>
              answer.iids[i] in s.storage.data && r.items[Offset(withSize) + i] == Item(s.storage.data[answer.iids[i]])
    ensures r.failure.None? <==> forall i :: 0 <= i < |answer.iids| ==> answer.iids[i] in s.storage.data
    ensures r.failure.None? ==> |r.items| == Offset(withSize) + |answer.iids|
    ensures r.failure.Some? ==>
              |r.items| < Offset(withSize) + |answer.iids|
              && answer.iids[|r.items| - Offset(withSize)] !in s.storage.data
              && r.failure.value == NotFound(Some(answer.iids[|r.items| - Offset(withSize)]))
  {
    var st := WithCatalog(s.storage);
    var fetched := Fetch(st.data, answer.iids);
    Run(Soup(st, s.nextid), Stream(answer, withSize, fetched.0), fetched.1)
  }

  /** `Soup.lazy`: like `query`, but yield a handle per hit instead of the
      record; nothing is fetched, so nothing can fail yet. */
  function Lazy(s: Soup, answer: Answer, withSize: bool): (r: Run<LazyRecord>)
    ensures r.soup == Soup(WithCatalog(s.storage), s.nextid)
    ensures r.failure.None?
    ensures withSize <==> |r.items| > 0 && r.items[0] == Size(answer.size)
    ensures |r.items| == Offset(withSize) + |answer.iids|
    ensures forall i :: 0 <= i < |answer.iids| ==> r.items[Offset(withSize) + i] == Item(LazyRecord(answer.iids[i]))
  {
    var handles := seq(|answer.iids|, i requires 0 <= i < |answer.iids| => LazyRecord(answer.iids[i]));
    Run(Soup(WithCatalog(s.storage), s.nextid), Stream(answer, withSize, handles), None)
  }

  /** `LazyRecord.__call__`: the record stored under the handle's id in the
      soup as it is when the handle is called. */
  function Resolve(h: LazyRecord, s: Soup): (r: Result<Record, Error>)
    ensures r.Ok? <==> h.intid in s.storage.data
    ensures r.Ok? ==> r.value == s.storage.data[h.intid]
    ensures r.Err? ==> r.error == NotFound(Some(h.intid))
  {
    Get(s, h.intid)
  }
}

=== FILE: soup_properties.dfy ===
/** Properties of the soup operations: the store invariant they keep, how
    store and catalog stay in step, and how queries and lazy handles relate. */
module SoupProperties {
  import opened Wrappers
  import opened Records
  import opened Catalogs
  import opened Soups
  import Keys
  import IdAllocation

  /** Every stored record carries its own key as intid, and keys are ids the
      allocator hands out. */
  predicate KeysMatch(data: map<int, Record>) {
    forall k :: k in data ==> data[k].intid == Some(k) && 0 <= k < KeyBound
  }

  /** The catalog indexes exactly the stored records; a storage without a
      catalog yet holds no records. */
  predicate Synced(st: SoupData) {
    if st.catalog.None? then st.data == map[] else Indexed(st.catalog.value) == st.data
  }

  /** The soup invariant: the counter counts the records, records sit under
      their own ids, and the catalog mirrors the store. */
  predicate Valid(s: Soup) {
    && s.storage.length == |s.storage.data|
    && KeysMatch(s.storage.data)
    && Synced(s.storage)
  }

  lemma NewSoupValid(nextid: Option<int>)
    ensures Valid(Soup(NewStorage, nextid))
  {
  }

  /** The catalog that `WithCatalog` produces indexes exactly the store. */
  lemma WithCatalogSynced(st: SoupData)
    requires Synced(st)
    ensures Indexed(WithCatalog(st).catalog.value) == st.data
  {
    if st.catalog.None? {
      assert Indexed(Fresh) == map[];
    }
  }

  /** Adding a new record (one whose intid is still unset, so not an object
      the soup already holds) keeps the invariant and leaves the record both
      retrievable and indexed under its id. */
  lemma AddPreservesValid(s: Soup, record: Record, seeds: seq<int>)
    requires Valid(s)
    requires record.intid.None?
    requires IdAllocation.ValidSeeds(seeds)
    requires Add(s, record, seeds).Some?
    ensures var a := Add(s, record, seeds).value;
            && Valid(a.soup)
            && Indexed(a.soup.storage.catalog.value)[a.intid] == record.(intid := Some(a.intid))
  {
    var a := Add(s, record, seeds).value;
    var stored := record.(intid := Some(a.intid));
    var st := WithCatalog(s.storage);
    WithCatalogSynced(s.storage);
    assert a.soup.storage.catalog.value == Index(st.catalog.value, Some(a.intid), stored);
    assert a.soup.storage.data == s.storage.data[a.intid := stored];
  }

  /** Deleting keeps the invariant; afterwards the record is neither stored
      nor indexed. A failed delete leaves nothing to restore. */
  lemma DeletePreservesValid(s: Soup, record: Record)
    requires Valid(s)
    requires Delete(s, record).Ok?
    ensures var s' := Delete(s, record).value;
            && Valid(s')
            && record.intid.value !in s'.storage.data
            && record.intid.value !in Indexed(s'.storage.catalog.value)
  {
    var k := record.intid.value;
    var st := WithCatalog(s.storage);
    WithCatalogSynced(s.storage);
    assert Delete(s, record).value.storage.catalog.value == Unindex(st.catalog.value, Some(k));
  }

  /** The stored values, in key order, are each stored under their own intid. */
  lemma ValuesStoredIn(data: map<int, Record>)
    requires KeysMatch(data)
    ensures forall i :: 0 <= i < |Keys.Values(data)| ==> StoredIn(Keys.Values(data)[i], data)
  {
    var vs := Keys.Values(data);
    var ks := Keys.Ascending(data.Keys);
    forall i | 0 <= i < |vs|
      ensures StoredIn(vs[i], data)
    {
      assert ks[i] in data && vs[i] == data[ks[i]];
    }
  }

  lemma KeysAreValueIds(data: map<int, Record>)
    requires KeysMatch(data)
    ensures forall k :: k in data ==> k in Ids(Keys.Values(data))
  {
    var vs := Keys.Values(data);
    var ks := Keys.Ascending(data.Keys);
    forall k | k in data
      ensures k in Ids(vs)
    {
      Keys.ValuesCoverKeys(data, k);
      var i :| 0 <= i < |vs| && ks[i] == k && vs[i] == data[k];
      assert vs[i].intid == Some(k);
    }
  }

  /** The stored values, in key order, are each stored under their own
      intid, and together carry every key. */
  lemma ValuesStored(data: map<int, Record>)
    requires KeysMatch(data)
    ensures forall i :: 0 <= i < |Keys.Values(data)| ==> StoredIn(Keys.Values(data)[i], data)
    ensures Ids(Keys.Values(data)) == data.Keys
  {
    var vs := Keys.Values(data);
    ValuesStoredIn(data);
    KeysAreValueIds(data);
    IdsOfStored(vs, data);
  }

  /** Indexing every stored record adds the store to what the catalog held. */
  lemma IndexAllAdds(c: Catalog, data: map<int, Record>)
    requires KeysMatch(data)
    ensures Indexed(IndexEach(c, Keys.Values(data))) == Indexed(c) + data
  {
    ValuesStored(data);
    IndexEachStored(c, Keys.Values(data), data);
    RestrictToKeys(data);
  }

  /** Indexing every stored record into a catalog that mirrors the store
      leaves it mirroring the store. */
  lemma IndexAllIntoSynced(c: Catalog, data: map<int, Record>)
    requires KeysMatch(data)
    requires Indexed(c) == data
    ensures Indexed(IndexEach(c, Keys.Values(data))) == data
  {
    IndexAllAdds(c, data);
    UnionWithSelf(data);
  }

  /** Indexing every stored record into a fresh catalog makes it mirror the
      store. */
  lemma IndexAllIntoFresh(data: map<int, Record>)
    requires KeysMatch(data)
    ensures Indexed(IndexEach(Fresh, Keys.Values(data))) == data
  {
    IndexAllAdds(Fresh, data);
    FreshIndexesNothing();
    UnionWithEmpty(data);
  }

  /** After `rebuild` every stored record is indexed under its own intid, and
      under nothing else. */
  lemma {:induction false} RebuildIndexesStore(s: Soup)
    requires KeysMatch(s.storage.data)
    ensures Indexed(Rebuild(s).storage.catalog.value) == s.storage.data
  {
    IndexAllIntoFresh(s.storage.data);
  }

  lemma RebuildPreservesValid(s: Soup)
    requires Valid(s)
    ensures Valid(Rebuild(s))
  {
    RebuildIndexesStore(s);
  }

  /** A rebuild of a valid soup answers for the same documents as before. */
  lemma RebuildKeepsIndexed(s: Soup)
    requires Valid(s)
    requires s.storage.catalog.Some?
    ensures Indexed(Rebuild(s).storage.catalog.value) == Indexed(s.storage.catalog.value)
  {
    RebuildIndexesStore(s);
  }

  /** Reindexing all records, or records as they are stored, keeps the
      invariant. */
  lemma ReindexPreservesValid(s: Soup, records: Option<seq<Record>>)
    requires Valid(s)
    requires records.Some? ==> forall i :: 0 <= i < |records.value| ==> StoredIn(records.value[i], s.storage.data)
    ensures Valid(Reindex(s, records))
  {
    var st := WithCatalog(s.storage);
    WithCatalogSynced(s.storage);
    if records.None? {
      IndexAllIntoSynced(st.catalog.value, s.storage.data);
    } else {
      IndexEachStored(st.catalog.value, records.value, s.storage.data);
      UnionRestrict(s.storage.data, Ids(records.value));
    }
  }

  lemma ClearPreservesValid(s: Soup)
    ensures Valid(Clear(s))
  {
  }

  /** Queries only create the catalog when it is missing; the invariant holds. */
  lemma QueryPreservesValid(s: Soup, answer: Answer, withSize: bool)
    requires Valid(s)
    ensures Valid(Query(s, answer, withSize).soup)
    ensures Valid(Lazy(s, answer, withSize).soup)
  {
    WithCatalogSynced(s.storage);
  }

  /** On a valid soup, a catalog answer naming only indexed ids never fails,
      and each record yielded carries the id the catalog named. */
  lemma {:induction false} QueryOfIndexedIds(s: Soup, answer: Answer, withSize: bool)
    requires Valid(s)
    requires forall i :: 0 <= i < |answer.iids| ==> answer.iids[i] in Indexed(WithCatalog(s.storage).catalog.value)
    ensures var r := Query(s, answer, withSize);
            && r.failure.None?
            && |r.items| == Offset(withSize) + |answer.iids|
            && forall i :: 0 <= i < |answer.iids| ==>
                 r.items[Offset(withSize) + i].Item? && r.items[Offset(withSize) + i].value.intid == Some(answer.iids[i])
  {
    WithCatalogSynced(s.storage);
    QueryOfStoredIds(s, answer, withSize);
  }

  /** The same, for hits that are keys of a store whose records carry their keys. */
  lemma QueryOfStoredIds(s: Soup, answer: Answer, withSize: bool)
    requires KeysMatch(s.storage.data)
    requires forall i :: 0 <= i < |answer.iids| ==> answer.iids[i] in s.storage.data
    ensures var r := Query(s, answer, withSize);
            && r.failure.None?
            && |r.items| == Offset(withSize) + |answer.iids|
            && forall i :: 0 <= i < |answer.iids| ==>
                 r.items[Offset(withSize) + i].Item? && r.items[Offset(withSize) + i].value.intid == Some(answer.iids[i])
  {
    var data := s.storage.data;
    var r := Query(s, answer, withSize);
    assert |r.items| - Offset(withSize) == |answer.iids|;
    forall i | 0 <= i < |answer.iids|
      ensures r.items[Offset(withSize) + i].Item? && r.items[Offset(withSize) + i].value.intid == Some(answer.iids[i])
    {
      var k := answer.iids[i];
      assert k in data;
      assert data[k].intid == Some(k);
      assert r.items[Offset(withSize) + i] == Item(data[k]);
    }
  }

  /** A query yields the stored hits before the first missing one and fails
      on that one: with only id 1 stored, hits `[1, 2]` yield the record
      under 1 and then fail on 2. */
  lemma QueryStopsAtMissing(r: Record, catalog: Option<Catalog>, nextid: Option<int>)
    ensures var s := Soup(SoupData(map[1 := r], 1, catalog), nextid);
            var q := Query(s, Answer(2, [1, 2]), false);
            q.items == [Item(r)] && q.failure == Some(NotFound(Some(2)))
  {
    var s := Soup(SoupData(map[1 := r], 1, catalog), nextid);
    var answer := Answer(2, [1, 2]);
    var q := Query(s, answer, false);
    assert answer.iids[0] in s.storage.data && answer.iids[1] !in s.storage.data;
    assert q.failure.Some?;
    assert |q.items| != 0;
    assert |q.items| == 1;
    assert q.items[0] == Item(s.storage.data[1]);
  }

  /** `lazy` has the shape of `query`: calling its handles in the same soup
      yields the records `query` yields, and the first handle past them fails
      exactly as `query` does. */
  lemma LazyMatchesQuery(s: Soup, answer: Answer, withSize: bool)
    ensures var q := Query(s, answer, withSize);
            var l := Lazy(s, answer, withSize);
            && l.soup == q.soup
            && (withSize ==> l.items[0] == Size(answer.size) && q.items[0] == Size(answer.size))
            && (forall i :: Offset(withSize) <= i < |q.items| ==>
                  Resolve(l.items[i].value, l.soup) == Ok(q.items[i].value))
            && (q.failure.Some? ==> Resolve(l.items[|q.items|].value, l.soup) == Err(q.failure.value))
  {
  }

  /** A handle reads the store when it is called, not when the query ran: once
      its record is deleted, calling it fails. */
  lemma LazyAfterDelete(s: Soup, answer: Answer, withSize: bool, i: nat, record: Record)
    requires i < |answer.iids|
    requires record.intid == Some(answer.iids[i])
    requires Delete(Lazy(s, answer, withSize).soup, record).Ok?
    ensures var l := Lazy(s, answer, withSize);
            && Resolve(l.items[Offset(withSize) + i].value, l.soup).Ok?
            && Resolve(l.items[Offset(withSize) + i].value, Delete(l.soup, record).value) == Err(NotFound(Some(answer.iids[i])))
  {
    var l := Lazy(s, answer, withSize);
    var h := LazyRecord(answer.iids[i]);
    assert l.items[Offset(withSize) + i] == Item(h);
    var d := Delete(l.soup, record).value;
    assert h.intid in l.soup.storage.data;
    assert h.intid !in d.storage.data;
  }

  /** A caller changing the attributes of a stored record in place: the
      record object in the store is the one the caller holds, so the store
      sees the change at once and the catalog does not. */
  function EditStored(s: Soup, intid: int, attrs: map<string, string>): (s': Soup)
    requires intid in s.storage.data
    ensures s'.storage.data.Keys == s.storage.data.Keys
    ensures s'.storage.data[intid].attrs == attrs
    ensures s'.storage.data[intid].intid == s.storage.data[intid].intid
    ensures forall k :: k in s.storage.data && k != intid ==> s'.storage.data[k] == s.storage.data[k]
    ensures s'.storage.length == s.storage.length && s'.nextid == s.nextid
    ensures s'.storage.catalog == s.storage.catalog
  {
    var data := s.storage.data;
    Soup(s.storage.(data := data[intid := data[intid].(attrs := attrs)]), s.nextid)
  }

  /** An edit that changes the attributes leaves the catalog stale. */
  lemma EditLeavesCatalogStale(s: Soup, intid: int, attrs: map<string, string>)
    requires Valid(s)
    requires intid in s.storage.data
    requires attrs != s.storage.data[intid].attrs
    ensures !Synced(EditStored(s, intid, attrs).storage)
  {
    var e := EditStored(s, intid, attrs);
    assert Indexed(s.storage.catalog.value)[intid] != e.storage.data[intid];
  }

  /** Reindexing just the edited record makes the soup valid again. */
  lemma ReindexAfterEdit(s: Soup, intid: int, attrs: map<string, string>)
    requires Valid(s)
    requires intid in s.storage.data
    ensures var e := EditStored(s, intid, attrs);
            Valid(Reindex(e, Some([e.storage.data[intid]])))
  {
    var e := EditStored(s, intid, attrs);
    var r := e.storage.data[intid];
    var c := s.storage.catalog.value;
    assert r.intid == Some(intid);
    IndexEachSnoc(c, [], r);
    assert IndexEach(c, []) == c;
    assert [] + [r] == [r];
    assert Indexed(IndexEach(c, [r])) == e.storage.data;
    assert KeysMatch(e.storage.data);
  }

  /** A soup's operations, for runs of several calls. */
  datatype Op =
    | AddOp(record: Record)
    | DeleteOp(record: Record)
    | ReindexAllOp
    | RebuildOp
    | ClearOp
    | QueryOp(answer: Answer, withSize: bool)
    | LazyOp(answer: Answer, withSize: bool)

  /** The soup after one operation. A delete that fails leaves the soup as it
      was; an add whose random stream runs out stops the run (`None`). */
  function Step(s: Soup, op: Op, seeds: seq<int>): Option<(Soup, seq<int>)>
    requires IdAllocation.ValidSeeds(seeds)
  {
    match op
    case AddOp(record) =>
      (match Add(s, record, seeds)
       case None => None
       case Some(a) => Some((a.soup, a.unused)))
    case DeleteOp(record) =>
      (match Delete(s, record)
       case Err(_) => Some((s, seeds))
       case Ok(s') => Some((s', seeds)))
    case ReindexAllOp => Some((Reindex(s, None), seeds))
    case RebuildOp => Some((Rebuild(s), seeds))
    case ClearOp => Some((Clear(s), seeds))
    case QueryOp(answer, withSize) => Some((Query(s, answer, withSize).soup, seeds))
    case LazyOp(answer, withSize) => Some((Lazy(s, answer, withSize).soup, seeds))
  }

  /** Every add of the run is given a new record. */
  predicate AddsNewRecords(ops: seq<Op>) {
    forall i :: 0 <= i < |ops| && ops[i].AddOp? ==> ops[i].record.intid.None?
  }

  lemma AddsNewRecordsTail(ops: seq<Op>)
    requires ops != [] && AddsNewRecords(ops)
    ensures ops[0].AddOp? ==> ops[0].record.intid.None?
    ensures AddsNewRecords(ops[1..])
  {
    forall i | 0 <= i < |ops| - 1 && ops[1..][i].AddOp?
      ensures ops[1..][i].record.intid.None?
    {
      assert ops[1..][i] == ops[i + 1];
    }
  }

  lemma StepPreservesValid(s: Soup, op: Op, seeds: seq<int>)
    requires Valid(s)
    requires op.AddOp? ==> op.record.intid.None?
    requires IdAllocation.ValidSeeds(seeds)
    requires Step(s, op, seeds).Some?
    ensures Valid(Step(s, op, seeds).value.0)
    ensures IdAllocation.ValidSeeds(Step(s, op, seeds).value.1)
  {
    match op
    case AddOp(record) => AddPreservesValid(s, record, seeds);
    case DeleteOp(record) =>
      if Delete(s, record).Ok? {
        DeletePreservesValid(s, record);
      }
    case ReindexAllOp => ReindexPreservesValid(s, None);
    case RebuildOp => RebuildPreservesValid(s);
    case ClearOp => ClearPreservesValid(s);
    case QueryOp(answer, withSize) => QueryPreservesValid(s, answer, withSize);
    case LazyOp(answer, withSize) => QueryPreservesValid(s, answer, withSize);
  }

  /** The soup after a run of operations sharing one random stream. */
  function RunOps(s: Soup, ops: seq<Op>, seeds: seq<int>): Option<Soup>
    requires IdAllocation.ValidSeeds(seeds)
    requires Valid(s)
    requires AddsNewRecords(ops)
    decreases |ops|
  {
    if ops == [] then Some(s)
    else
      match Step(s, ops[0], seeds)
      case None => None
      case Some((s', rest)) =>
        StepPreservesValid(s, ops[0], seeds);
        AddsNewRecordsTail(ops);
        RunOps(s', ops[1..], rest)
  }

  /** Any run of operations from a valid soup ends in a valid soup: in
      particular the counter always equals the number of stored records. */
  lemma {:induction false} RunPreservesValid(s: Soup, ops: seq<Op>, seeds: seq<int>)
    requires IdAllocation.ValidSeeds(seeds)
    requires Valid(s)
    requires AddsNewRecords(ops)
    requires RunOps(s, ops, seeds).Some?
    ensures Valid(RunOps(s, ops, seeds).value)
    ensures RunOps(s, ops, seeds).value.storage.length == |RunOps(s, ops, seeds).value.storage.data|
    decreases |ops|
  {
    if ops != [] {
      AddsNewRecordsTail(ops);
      StepPreservesValid(s, ops[0], seeds);
      var next := Step(s, ops[0], seeds).value;
      RunPreservesValid(next.0, ops[1..], next.1);
    }
  }

  /** Adding several records in turn: the final soup and the ids returned. */
  function AddAll(s: Soup, records: seq<Record>, seeds: seq<int>): Option<(Soup, seq<int>)>
    requires IdAllocation.ValidSeeds(seeds)
    decreases |records|
  {
    if records == [] then Some((s, []))
    else
      match Add(s, records[0], seeds)
      case None => None
      case Some(a) =>
        match AddAll(a.soup, records[1..], a.unused)
        case None => None
        case Some((s', ids)) => Some((s', [a.intid] + ids))
  }

  /** One step of `AddAll`: the first add succeeded and the rest ran on. */
  lemma AddAllCons(s: Soup, records: seq<Record>, seeds: seq<int>)
    requires IdAllocation.ValidSeeds(seeds)
    requires records != []
    ensures AddAll(s, records, seeds).Some? ==> Add(s, records[0], seeds).Some?
    ensures AddAll(s, records, seeds).Some? ==>
            var a := Add(s, records[0], seeds).value;
            && IdAllocation.ValidSeeds(a.unused)
            && AddAll(a.soup, records[1..], a.unused).Some?
            && var tail := AddAll(a.soup, records[1..], a.unused).value;
            AddAll(s, records, seeds).value == (tail.0, [a.intid] + tail.1)
  {
  }

  /** Successive adds return one id per record and count each record once. */
  lemma {:induction false} AddAllCounts(s: Soup, records: seq<Record>, seeds: seq<int>)
    requires IdAllocation.ValidSeeds(seeds)
    requires AddAll(s, records, seeds).Some?
    ensures |AddAll(s, records, seeds).value.1| == |records|
    ensures AddAll(s, records, seeds).value.0.storage.length == s.storage.length + |records|
    decreases |records|
  {
    if records != [] {
      AddAllCons(s, records, seeds);
      var a := Add(s, records[0], seeds).value;
      AddAllCounts(a.soup, records[1..], a.unused);
    }
  }

  /** No id returned by successive adds was in use before them. */
  lemma {:induction false} AddAllFresh(s: Soup, records: seq<Record>, seeds: seq<int>)
    requires IdAllocation.ValidSeeds(seeds)
    requires AddAll(s, records, seeds).Some?
    ensures var ids := AddAll(s, records, seeds).value.1;
            forall i :: 0 <= i < |ids| ==> ids[i] !in s.storage.data
    decreases |records|
  {
    if records != [] {
      AddAllCons(s, records, seeds);
      var a := Add(s, records[0], seeds).value;
      AddAllFresh(a.soup, records[1..], a.unused);
    }
  }

  /** Successive adds store exactly the records under the ids they return,
      on top of what was stored. */
  lemma {:induction false} AddAllKeys(s: Soup, records: seq<Record>, seeds: seq<int>)
    requires IdAllocation.ValidSeeds(seeds)
    requires AddAll(s, records, seeds).Some?
    ensures var (s', ids) := AddAll(s, records, seeds).value;
            s'.storage.data.Keys == s.storage.data.Keys + (set x | x in ids)
    decreases |records|
  {
    if records != [] {
      AddAllCons(s, records, seeds);
      var a := Add(s, records[0], seeds).value;
      AddAllKeys(a.soup, records[1..], a.unused);
      var tail := AddAll(a.soup, records[1..], a.unused).value;
      assert a.soup.storage.data.Keys == s.storage.data.Keys + {a.intid};
      UnionCons(s.storage.data.Keys, a.intid, tail.1);
    }
  }

  lemma UnionCons(keys: set<int>, x: int, xs: seq<int>)
    ensures keys + (set y | y in [x] + xs) == (keys + {x}) + (set y | y in xs)
  {
  }

  /** No value occurs twice. */
  predicate Distinct(xs: seq<int>) {
    forall i, j :: 0 <= i < j < |xs| ==> xs[i] != xs[j]
  }

  lemma DistinctCons(x: int, xs: seq<int>)
    requires Distinct(xs)
    requires x !in xs
    ensures Distinct([x] + xs)
  {
    var ys := [x] + xs;
    forall i, j | 0 <= i < j < |ys|
      ensures ys[i] != ys[j]
    {
      assert ys[j] == xs[j - 1];
      if i > 0 {
        assert ys[i] == xs[i - 1];
      }
    }
  }

  /** Ids handed out by successive adds are pairwise distinct. */
  lemma {:induction false} AddAllDistinct(s: Soup, records: seq<Record>, seeds: seq<int>)
    requires IdAllocation.ValidSeeds(seeds)
    requires AddAll(s, records, seeds).Some?
    ensures Distinct(AddAll(s, records, seeds).value.1)
    decreases |records|
  {
    if records != [] {
      AddAllCons(s, records, seeds);
      var a := Add(s, records[0], seeds).value;
      AddAllDistinct(a.soup, records[1..], a.unused);
      AddAllFresh(a.soup, records[1..], a.unused);
      var rest := AddAll(a.soup, records[1..], a.unused).value.1;
      assert a.intid in a.soup.storage.data;
      assert a.intid !in rest;
      DistinctCons(a.intid, rest);
    }
  }

  /** A query for one stored id yields just that record. */
  lemma QueryOneStored(s: Soup, intid: int)
    requires intid in s.storage.data
    ensures Query(s, Answer(1, [intid]), false).items == [Item(s.storage.data[intid])]
    ensures Query(s, Answer(1, [intid]), false).failure.None?
  {
    var q := Query(s, Answer(1, [intid]), false);
    assert q.failure.None?;
    assert |q.items| == 1;
  }

  /** An add leaves every record that was already stored where it was. */
  lemma AddKeepsStored(s: Soup, record: Record, seeds: seq<int>, k: int)
    requires IdAllocation.ValidSeeds(seeds)
    requires Add(s, record, seeds).Some?
    requires k in s.storage.data
    ensures Add(s, record, seeds).value.intid != k
    ensures k in Add(s, record, seeds).value.soup.storage.data
    ensures Add(s, record, seeds).value.soup.storage.data[k] == s.storage.data[k]
  {
  }

  /** Deleting the record an add just stored leaves the cursor one past
      the freed id. */
  lemma AddThenDelete(s: Soup, record: Record, seeds: seq<int>, first: Added, gone: Soup)
    requires IdAllocation.ValidSeeds(seeds)
    requires Add(s, record, seeds) == Some(first)
    requires Delete(first.soup, record.(intid := Some(first.intid))) == Ok(gone)
    ensures IdAllocation.ValidSeeds(first.unused)
    ensures gone.nextid == Some(first.intid + 1)
  {
  }

  /** With the cursor one past `k`, an add hands out `k` only after drawing
      a seed. */
  lemma AddPastCursor(s: Soup, record: Record, seeds: seq<int>, k: int, added: Added)
    requires IdAllocation.ValidSeeds(seeds)
    requires s.nextid == Some(k + 1)
    requires Add(s, record, seeds) == Some(added)
    ensures added.intid == k ==> |added.unused| < |seeds|
  {
    IdAllocation.CursorPastFreed(s.storage.data.Keys, k, seeds);
  }

  /** An id freed by a delete is not handed straight back: the next add
      either takes the id after it from the cursor or draws a fresh seed. */
  lemma AddDeleteAddNoReuse(s: Soup, record: Record, other: Record, seeds: seq<int>,
                             first: Added, gone: Soup, second: Added)
    requires IdAllocation.ValidSeeds(seeds)
    requires Add(s, record, seeds) == Some(first)
    requires Delete(first.soup, record.(intid := Some(first.intid))) == Ok(gone)
    requires IdAllocation.ValidSeeds(first.unused)
    requires Add(gone, other, first.unused) == Some(second)
    ensures second.intid == first.intid ==> |second.unused| < |first.unused|
  {
    AddThenDelete(s, record, seeds, first, gone);
    AddPastCursor(gone, other, first.unused, first.intid, second);
  }

  /** Two adds to a fresh soup get different ids, and a query whose catalog
      answer is the first id yields exactly the first record. */
  lemma TwoAddsThenQuery(nextid: Option<int>, a: Record, b: Record, seeds: seq<int>)
    requires IdAllocation.ValidSeeds(seeds)
    requires a.intid.None? && b.intid.None?
    requires Add(Soup(NewStorage, nextid), a, seeds).Some?
    requires var first := Add(Soup(NewStorage, nextid), a, seeds).value;
             Add(first.soup, b, first.unused).Some?
    ensures var first := Add(Soup(NewStorage, nextid), a, seeds).value;
            var second := Add(first.soup, b, first.unused).value;
            && second.intid != first.intid
            && Query(second.soup, Answer(1, [first.intid]), false).items == [Item(a.(intid := Some(first.intid)))]
            && Query(second.soup, Answer(1, [first.intid]), false).failure.None?
  {
    var first := Add(Soup(NewStorage, nextid), a, seeds).value;
    assert first.intid in first.soup.storage.data;
    assert first.soup.storage.data[first.intid] == a.(intid := Some(first.intid));
    AddKeepsStored(first.soup, b, first.unused, first.intid);
    var second := Add(first.soup, b, first.unused).value;
    QueryOneStored(second.soup, first.intid);
  }

  /** After `clear` a query yields no record whatever the catalog answers:
      only the size when asked for, a failure exactly when the answer names
      an id. The counter is zero. */
  lemma ClearThenQuery(s: Soup, answer: Answer, withSize: bool)
    ensures Clear(s).storage.length == 0
    ensures Query(Clear(s), answer, withSize).items == (if withSize then [Size(answer.size)] else [])
    ensures Query(Clear(s), answer, withSize).failure.None? <==> answer.iids == []
  {
    var c := Clear(s);
    assert c.storage.data == map[];
    var q := Query(c, answer, withSize);
    if answer.iids != [] {
      assert answer.iids[0] !in c.storage.data;
    }
    assert |q.items| == Offset(withSize);
  }
}

=== FILE: wrappers.dfy ===
/** Optional values and results with an error, used wherever the source returns
    `None` or raises. */
module Wrappers {

  datatype Option<+T> = None | Some(value: T) {

    /** The value, or `default` when there is none (Python's `dict.get`). */
    function GetOr(default: T): T {
      match this
      case Some(v) => v
      case None => default
    }
  }

  datatype Result<+T, +E> = Ok(value: T) | Err(error: E)
}
